=== FILE: README.md ===
# DLQ-to-Lambda redrive scripts, modelled in Dafny

This project models the two control routines of the aws-DLQtoLambdaScript repository.

1. **The redrive loop.** It drains an SQS dead-letter queue into a Lambda function. The repository has three near-identical copies of it:
   - `src/sqsToLambda.ts` looks up the queue URL by name;
   - `built/sqsToLambda.js` builds the URL from command-line arguments;
   - `src/testScript.ts` hard-codes the URL and the function.

   The loop receives a batch (at most 10 messages, visibility timeout 40 s, long-poll wait 15 s). For each message, in order, it invokes the Lambda asynchronously (`InvocationType: 'Event'`) with the message body. A message is deleted, using its own receipt handle, only when the invocation answered status 202. The loop then receives again. It stops at the first receive that has no `Messages` field or has an empty array. It counts messages received and reprocessed, and lists the ids of failed messages in order.
2. **The conflict-retry configuration updater** (`exampleScript.ts`). It reads a Lambda's configuration and merges one environment variable into it. It then writes the configuration back. When the write fails with `ResourceConflictException` while the module-level `retryCount` is below `retryLimit`, it waits `exponentBase ** retryCount` milliseconds, increments the counter and tries again. Any other failure, or a conflict at the limit, is rethrown unchanged.

The services are not modelled. Every answer a routine gets is supplied as data:

- for each received message, a `Delivery` holds what the invocation answers (a status code or a throw) and what the delete answers (completion or a throw);
- a finite sequence holds the receive answers (a `Messages` array, no `Messages` field, or a throw);
- for the updater, a function from attempt number to outcome holds the update answers.

Each redrive routine is a pure function that returns its final counters and a trace of every request it issued, the queue URL lookup included. The updater returns its update requests and the waits it made; its configuration read is not in that record.

Modules:

- `Aws` (`aws.dfy`): request and response shapes, the call trace, and the projection of a trace onto one kind of call.
- `Redrive` (`redrive.dfy`): the shared loop, written as the scripts write it (`HandleMessage`, `HandleBatch`, `Drain`, `Run`). Next to it are reference definitions of the run's outcome, message by message: `Handled`, `FateOf`, `FailedIds`, `InvokesFor`, `DeletesFor`, `ExpectedEnd`, and `ExpectedTrace`, the whole request trace in issue order. Lemmas prove that the two agree.
- `SqsToLambda`, `SqsToLambdaBuilt` and `TestScript`: the three `main`s. Each one only sets up the queue URL, the function name and the receive parameters, then runs the shared loop.
- `QueueUrls` (`queue_urls.dfy`): the templated queue URL and a parser that reads it back.
- `ExampleScript` (`example_script.dfy`): the environment merge, the backoff and the retry chain.

The model follows what the code does. Some of it is easy to misread:

- A delete that throws after a 202 counts the message as **failed**, not as reprocessed.
- An invocation that answers a status other than 202 without throwing counts in **neither** bucket. So `received == reprocessed + |failed| + untouched`, where "untouched" is a third group the code never reports.
- There is no enqueue-time filter, no skipped counter and no cancellation.
- A queue URL lookup that yields nothing logs a message and returns early, without an error.
- A `receiveMessage` or `getQueueUrl` call that throws is outside every try/catch. The run ends with that error (`Crashed`), and the totals are never printed. A `getFunctionConfiguration` call that throws in the updater likewise ends `updateEnvironmentVariable` with that error, as a failed chain that sent no update.

## Model

| member | source | states |
|---|---|---|
| `Redrive.HandleMessage` | src/sqsToLambda.ts:67-96 | Handling one message never changes the received count. It adds at most one to reprocessed plus failed, and it issues only requests for the run's queue URL and function. |
| `Redrive.HandleMessageStats` | src/sqsToLambda.ts:77-96 | A message is counted as reprocessed only if the invocation answered 202 and the delete completed. Its id is appended to the failed list exactly when the invocation threw, or when it answered 202 and the delete threw. |
| `Redrive.HandleMessageTrace` | src/sqsToLambda.ts:67-86 | One message issues its Event invocation carrying its body and then, exactly when that invocation answered 202, a delete with the message's receipt handle to the run's queue URL. Nothing else is issued, and nothing comes between the two. |
| `Redrive.HandleBatch` | src/sqsToLambda.ts:61-98 | Handling a batch leaves the received count alone and adds at most the batch length to reprocessed plus failed. |
| `Redrive.HandleBatchStats` | src/sqsToLambda.ts:61-98 | After a batch, reprocessed grows by that batch's reprocessed messages. The failed list grows by the ids of that batch's failed messages, in batch order. |
| `Redrive.HandleBatchTrace` | src/sqsToLambda.ts:61-98 | A batch issues its messages' requests message by message in batch order: one message's invocation and delete come before the next message's invocation. |
| `Redrive.NextProgress` | src/sqsToLambda.ts:57-99 | One pass of the loop body adds the batch length to received. It adds at most that length to reprocessed plus failed, and it issues only requests for the run's queue URL and function. |
| `Redrive.Drain` | src/sqsToLambda.ts:57-100 | The while loop only ends as Completed or Crashed. It never lowers the received count, and it keeps reprocessed + failed <= received. |
| `Redrive.DrainStats` | src/sqsToLambda.ts:57-100 | The loop adds each non-empty batch's length to received, up to the first absent, empty or thrown receive. Reprocessed and the ordered failed list are those of all handled messages. |
| `Redrive.DrainTrace` | src/sqsToLambda.ts:57-100 | The loop issues, for each handled batch in turn, that batch's requests and then the next receive. |
| `Redrive.DrainReceives` | src/sqsToLambda.ts:57-99 | The loop issues one further receive per non-empty batch, always with the same request. |
| `Redrive.DrainEnd` | src/sqsToLambda.ts:57-99 | The loop ends Crashed with the error when the receive that ends it threw. Otherwise it ends Completed. |
| `Redrive.Run` | src/sqsToLambda.ts:52-57 | The first request is a receive. An absent first `Messages` field returns at once with nothing counted. An empty first array runs the loop zero times: Completed, all totals 0, no further request. reprocessed + failed <= received always holds. |
| `Redrive.RunMatchesReference` | src/sqsToLambda.ts:52-100 | Over a whole run: received is the number of handled messages, and reprocessed and the ordered failed list follow each message's fate. The trace is exactly the reference trace: the first receive, then per batch each message's invocation followed by its delete when it answered 202, then the next receive. Per kind, invocations and deletes are the reference ones, and there is one receive per handled batch plus the first. The end is the one the receive answers dictate. |
| `Redrive.RunTrace` | src/sqsToLambda.ts:52-99 | A run's whole trace, in issue order, equals the reference trace built message by message from the receive answers. |
| `Redrive.RunPartition` | src/sqsToLambda.ts:58-96 | Every received message is reprocessed, failed, or (for a non-202 answer that did not throw) neither, and never two of these. |
| `Redrive.FailureDoesNotAbortBatch` | src/sqsToLambda.ts:67-96 | A throw for one message records exactly that message's id, and every message of the batch is still invoked. |
| `Redrive.AllAcceptedBatch` | src/sqsToLambda.ts:77-89 | A batch where every invocation answers 202 and every delete completes counts all messages as reprocessed and fails none. It issues one delete per message, and the j-th delete is for the j-th message with its receipt handle. |
| `Redrive.AllAcceptedDeletes` | src/sqsToLambda.ts:77-86 | When every invocation answered 202, there is one delete per message and the j-th goes to the queue with the j-th message's receipt handle. |
| `Redrive.NotAcceptedCountsNowhere` | src/sqsToLambda.ts:77-90 | A non-202 answer that does not throw counts the message as received only. The message is not deleted. |
| `Redrive.InvokesForIndex` | src/sqsToLambda.ts:68-75 | The i-th invocation is for the i-th handled message and carries its body. |
| `SqsToLambda.ResolvedUrl` | src/sqsToLambda.ts:28-29 | A lookup resolves exactly when it answered with a non-empty `QueueUrl`, and it resolves to that URL. |
| `SqsToLambda.Main` | src/sqsToLambda.ts:24-32 | If the lookup throws, `main` rejects after only the lookup. A missing or empty URL returns after only the lookup: no receive, invoke or delete, nothing counted. A resolved URL starts the loop with a receive to that URL. |
| `SqsToLambda.MainMatchesReference` | src/sqsToLambda.ts:20-104 | With a resolved URL, the whole trace is the single lookup followed by the reference trace for that URL and function. The counters, the end, and the invocations, deletes and receives per kind are the reference ones. |
| `SqsToLambdaBuilt.Main` | built/sqsToLambda.js:39-95 | The argv variant runs the loop against the templated URL and the named function. Its end, its counters and ordered failed list, its whole trace, and its invocations and deletes (a delete only after a 202, with the message's receipt handle) are the reference ones. An absent first batch returns early with nothing counted. |
| `SqsToLambdaBuilt.MainUsesTemplatedUrl` | built/sqsToLambda.js:46-77 | When the region and the account id hold no '/', the URL of every receive and delete reads back as the command-line region, account id and queue name. |
| `QueueUrls.ParseQueueUrl` | built/sqsToLambda.js:47 | Whatever the parser accepts formats back to the same URL. |
| `QueueUrls.QueueUrl` | built/sqsToLambda.js:47 | The templated URL starts with `https://sqs.`, ends with `/` and the queue name, and is as long as its parts plus the two separators. |
| `QueueUrls.QueueUrlRoundTrip` | built/sqsToLambda.js:47 | `https://sqs.<region>.amazonaws.com/<account>/<queue>` parses back to its parts when the region and the account id hold no '/'. |
| `TestScript.Main` | src/testScript.ts:17-85 | The test variant runs the loop against the fixed URL and "testLambda", without `AttributeNames`. Its end, its counters and ordered failed list, its whole trace, and its invocations and deletes are the reference ones. An absent first batch returns early with nothing counted. |
| `TestScript.TestQueueUrlReadsBack` | src/testScript.ts:14-27 | The account id is left empty, so the fixed URL's path starts with "//". It still reads back as region ap-southeast-2, an empty account id and queue testQueue. |
| `TestScript.InvocationCarriesBody` | src/testScript.ts:47-56 | The i-th invocation targets "testLambda" with type Event and the i-th handled message's body as payload. |
| `ExampleScript.MergeEnvironment` | exampleScript.ts:33-43 | After the merge, the name maps to the value and every other existing variable is unchanged. No other key appears. A missing `Environment` or missing `Variables` gives exactly the one new entry. |
| `ExampleScript.MergeOverwrites` | exampleScript.ts:37-38 | Setting the same variable twice keeps only the second value. |
| `ExampleScript.BackoffProduct` | exampleScript.ts:76-77 | The wait at retry count 0 is 1 ms and at count 1 is the base. The wait at count m + n is the product of the waits at m and at n, so the wait at n is the base to the power n. |
| `ExampleScript.BackoffPositive` | exampleScript.ts:76-77 | With a base of at least 1 every wait is at least 1 ms. |
| `ExampleScript.BackoffIncreasing` | exampleScript.ts:76-77 | With a base of at least 2 every wait is strictly longer than the one before. |
| `ExampleScript.UpdateFunctionConfiguration` | exampleScript.ts:53-70 | Each attempt sends the same request, so attempts = waits + 1. The retry count grows by one per wait, and the number of waits is at most `retryLimit - retryCount`. Wait i is `exponentBase ** (retryCount + i)`. Every retried attempt was a conflict. The chain succeeds exactly when the last attempt succeeded. Otherwise it fails with that attempt's error, unchanged, which was not a conflict below the limit. |
| `ExampleScript.UpdateEnvironmentVariable` | exampleScript.ts:23-51 | A configuration read that throws fails with that error and sends no update. Otherwise every update request carries the function name and the merged environment, and the result is the awaited retry chain's: `retryCount` grows by one per wait, wait i is `exponentBase ** (retryCount + i)`, every retried attempt was a conflict, and the run succeeds exactly when the last attempt succeeded, otherwise failing with that attempt's error unchanged. |
| `ExampleScript.AttemptBound` | exampleScript.ts:9-65 | Starting from `retryCount = 0`, there are at most `retryLimit + 1` attempts, and exactly one with no wait when the limit is not positive. |
| `ExampleScript.RetryExhaustion` | exampleScript.ts:61-67 | Conflicts only: the chain retries until the counter reaches the limit, then rethrows the conflict unchanged after `retryLimit - retryCount + 1` attempts. |
| `ExampleScript.OtherErrorsPropagate` | exampleScript.ts:66-67 | A non-conflict error ends the chain after that one attempt, with no wait, and is rethrown unchanged. |
| `ExampleScript.TwoConflictsThenSuccess` | exampleScript.ts:53-77 | Limit 3, base 2, two conflicts then success: the chain succeeds on the third attempt after waits of 1 and 2 ms. |
| `ExampleScript.WaitsDoubleForBaseTwo` | exampleScript.ts:63-64 | For base 2 the waits are 1, 2, 4, and so on: each is twice the previous one. |

## Left out

- The AWS SDK calls (`getQueueUrl`, `receiveMessage`, `invoke`, `deleteMessage`, `getFunctionConfiguration`, `updateFunctionConfiguration`) are network clients. Their answers are inputs and their requests are recorded in a trace.
- A queue that never drains is not modelled. The receive answers are a finite sequence, and a sequence that runs out is read as a receive with no `Messages` field.
- Sleeping through `setTimeout` (exampleScript.ts:72-74) is not modelled. The wait durations are recorded instead. A delay below 1 ms or above 2^31 − 1 ms, which Node's timer replaces with a 1 ms wait, is not modelled: the model records the full value, for example 2^31 ms at base 2 and count 31.
- The async/await machinery is not modelled. Every step is strictly sequential.
- Console logging is not modelled.
- Reading `process.env` and `process.argv` is not modelled. This includes the argument-count check at built/sqsToLambda.js:25-26, `AWS.config`, and setting `AWS_PROFILE`.
- `parseInt` of the retry settings is not modelled. The model takes them as integers. A missing retry limit reads as NaN in JavaScript and disables every retry, because `retryCount < NaN` is false. A missing base makes every wait after the first NaN, which the timer runs as a 1 ms wait.
- ExampleScript.BackoffMs: computes `exponentBase ** retryCount` exactly. JavaScript computes it in floating point, which loses precision beyond 2^53.
- The bytes `JSON.stringify` makes of a body are not modelled. The payload is an opaque value built from the body.
- Absent `MessageId`, `Body` or `ReceiptHandle` fields are not modelled. Messages carry all three as strings.
- Extra fields of the configuration's `Environment` object (its `Error` member) are not modelled. Only `Variables` is.
- The transpiler helpers at built/sqsToLambda.js:3-21 are not modelled.
- Module-level `retryCount` is passed in and returned rather than kept as a global. The script runs one chain from 0, so this is the same behaviour.

=== FILE: aws.dfy ===
/**
 The request and response shapes of the AWS services the scripts talk to
 (SQS, Lambda), reduced to the fields the scripts read or write.

 The services themselves are not modelled: every answer a script receives is
 supplied up front as data (a "script" of outcomes), and every request a script
 issues is recorded as a `Call` in a trace.
 */
module Aws {

  datatype Option<+T> = None | Some(value: T)

  /** An error thrown by an SDK call; `code` is the AWS error code, e.g. "ResourceConflictException". */
  datatype AwsError = AwsError(code: string, message: string)

  /** Success or a thrown error, for calls whose only result is "did not throw". */
  datatype Outcome = Pass | Fail(error: AwsError)

  /** An SQS message as returned by ReceiveMessage. */
  datatype Message = Message(messageId: string, body: string, receiptHandle: string)

  /** What `lambda.invoke(...)` does: answer with a status code, or throw. */
  datatype InvokeOutcome = Responded(statusCode: int) | InvokeThrew(error: AwsError)

  /** What `sqs.deleteMessage(...)` does: complete, or throw. */
  datatype DeleteOutcome = Deleted | DeleteThrew(error: AwsError)

  /** One received message together with the answers the Lambda and SQS services give
      when the loop acts on it. The delete answer is only consulted if a delete is issued. */
  datatype Delivery = Delivery(message: Message, invoke: InvokeOutcome, delete: DeleteOutcome)

  /** What one `sqs.receiveMessage(...)` call does: answer with a `Messages` array
      (possibly empty), answer without a `Messages` field, or throw. */
  datatype ReceiveOutcome =
    | Received(messages: seq<Delivery>)
    | NoMessagesField
    | ReceiveThrew(error: AwsError)

  /** The Lambda payload `JSON.stringify(Body)`; its exact bytes are not modelled. */
  datatype Payload = JsonOf(body: string)

  datatype ReceiveRequest = ReceiveRequest(
    queueUrl: string,
    maxNumberOfMessages: int,
    visibilityTimeout: int,
    waitTimeSeconds: int,
    allAttributes: bool)

  datatype InvokeRequest = InvokeRequest(functionName: string, invocationType: string, payload: Payload)

  datatype DeleteRequest = DeleteRequest(queueUrl: string, receiptHandle: string)

  /** One request issued to a service, in the order the script issues them. */
  datatype Call =
    | GetQueueUrl(queueName: string)
    | ReceiveMessage(receive: ReceiveRequest)
    | Invoke(invoke: InvokeRequest)
    | DeleteMessage(delete: DeleteRequest)

  datatype CallKind = LookupKind | ReceiveKind | InvokeKind | DeleteKind

  function KindOf(c: Call): CallKind {
    match c
    case GetQueueUrl(_) => LookupKind
    case ReceiveMessage(_) => ReceiveKind
    case Invoke(_) => InvokeKind
    case DeleteMessage(_) => DeleteKind
  }

  /** The calls of one kind in a trace, in trace order. */
  function CallsOfKind(calls: seq<Call>, k: CallKind): (r: seq<Call>)
    ensures |r| <= |calls|
  {
    if |calls| == 0 then []
    else (if KindOf(calls[0]) == k then [calls[0]] else []) + CallsOfKind(calls[1..], k)
  }

  lemma {:induction false} CallsOfKindAppend(a: seq<Call>, b: seq<Call>, k: CallKind)
    ensures CallsOfKind(a + b, k) == CallsOfKind(a, k) + CallsOfKind(b, k)
  {
    if |a| == 0 {
      assert a + b == b;
    } else {
      var head := if KindOf(a[0]) == k then [a[0]] else [];
      assert (a + b)[0] == a[0];
      assert (a + b)[1..] == a[1..] + b;
      CallsOfKindAppend(a[1..], b, k);
      calc {
        CallsOfKind(a + b, k);
        head + CallsOfKind(a[1..] + b, k);
        head + (CallsOfKind(a[1..], k) + CallsOfKind(b, k));
        (head + CallsOfKind(a[1..], k)) + CallsOfKind(b, k);
      }
    }
  }
}

=== FILE: example_script.dfy ===
/**
 `exampleScript.ts`: set one environment variable of a Lambda function by reading
 its configuration, merging the variable in, and writing the configuration back;
 the write is retried with exponential backoff while it fails with
 "ResourceConflictException" and the module-level `retryCount` is below `retryLimit`.

 The Lambda service is scripted: the configuration read answers once, and the
 i-th update attempt of a chain answers `respond(i)`. Waits are recorded, not slept.
 */
module ExampleScript {
  import opened Aws

  const ResourceConflict := "ResourceConflictException"

  datatype Environment = Environment(variables: Option<map<string, string>>)

  datatype FunctionConfiguration = FunctionConfiguration(environment: Option<Environment>)

  datatype UpdateRequest = UpdateRequest(functionName: string, environment: Environment)

  /** What `lambda.getFunctionConfiguration(...)` does: answer, or throw. */
  datatype ConfigLookup = Got(config: FunctionConfiguration) | GetThrew(error: AwsError)

  /** What one `lambda.updateFunctionConfiguration(...)` attempt does: complete, or throw. */
  datatype UpdateOutcome = UpdateOk | UpdateThrew(error: AwsError)

  /** `retryLimit` and `retryBackoffExponentBase`, as parsed from the environment. */
  datatype RetrySettings = RetrySettings(retryLimit: int, exponentBase: int)

  /** A retry chain's record: how it ended, the update requests it sent (one per
      attempt), the waits it made in milliseconds, and `retryCount` afterwards. */
  datatype UpdateChain = UpdateChain(outcome: Outcome, requests: seq<UpdateRequest>, waits: seq<int>, retryCount: nat)

  // ---------------------------------------------------------------------------
  // The environment-variable merge.
  // ---------------------------------------------------------------------------

  /** The function's variables as the merge finds them: a missing `Environment` or a
      missing `Variables` reads as no variables. */
  function CurrentVariables(config: FunctionConfiguration): map<string, string> {
    if config.environment.Some? && config.environment.value.variables.Some?
    then config.environment.value.variables.value
    else map[]
  }

  /** The environment sent back: `envVarName` maps to `envVarValue`, every other
      variable is kept as it was, and nothing else is added. */
  function MergeEnvironment(config: FunctionConfiguration, envVarName: string, envVarValue: string): (e: Environment)
    ensures e.variables.Some?
    ensures envVarName in e.variables.value && e.variables.value[envVarName] == envVarValue
    ensures forall k :: k in CurrentVariables(config) && k != envVarName ==>
              k in e.variables.value && e.variables.value[k] == CurrentVariables(config)[k]
    ensures e.variables.value.Keys == CurrentVariables(config).Keys + {envVarName}
    ensures (config.environment.None? || config.environment.value.variables.None?) ==>
              e.variables.value == map[envVarName := envVarValue]
  {
    var none: map<string, string> := map[];
    assert none[envVarName := envVarValue] == map[envVarName := envVarValue];
    var environment := if config.environment.Some? then config.environment.value else Environment(Some(map[]));
    match environment.variables
    case Some(variables) => Environment(Some(variables[envVarName := envVarValue]))
    case None => Environment(Some(map[envVarName := envVarValue]))
  }

  /** Merging twice with the same name keeps only the second value. */
  lemma MergeOverwrites(config: FunctionConfiguration, name: string, first: string, second: string)
    ensures MergeEnvironment(FunctionConfiguration(Some(MergeEnvironment(config, name, first))), name, second)
         == MergeEnvironment(config, name, second)
  {
    var once := FunctionConfiguration(Some(MergeEnvironment(config, name, first)));
    var a := MergeEnvironment(once, name, second).variables.value;
    var b := MergeEnvironment(config, name, second).variables.value;
    assert a.Keys == b.Keys;
    forall k | k in a
      ensures a[k] == b[k]
    {
    }
    assert a == b;
  }

  // ---------------------------------------------------------------------------
  // The bounded conflict retry.
  // ---------------------------------------------------------------------------

  function Pow(base: int, n: nat): int {
    if n == 0 then 1 else base * Pow(base, n - 1)
  }

  /** `exponentialBackoff`: the wait, in milliseconds, before the retry made at `retryCount`. */
  function BackoffMs(exponentBase: int, retryCount: nat): int {
    Pow(exponentBase, retryCount)
  }

  /** The wait at count `m + n` is the product of the waits at `m` and at `n`: the
      backoff is exponential in the retry count. */
  lemma {:induction false} BackoffProduct(exponentBase: int, m: nat, n: nat)
    ensures BackoffMs(exponentBase, 0) == 1
    ensures BackoffMs(exponentBase, 1) == exponentBase
    ensures BackoffMs(exponentBase, m + n) == BackoffMs(exponentBase, m) * BackoffMs(exponentBase, n)
  {
    if m > 0 {
      BackoffProduct(exponentBase, m - 1, n);
      calc {
        Pow(exponentBase, m + n);
        exponentBase * Pow(exponentBase, (m - 1) + n);
        exponentBase * (Pow(exponentBase, m - 1) * Pow(exponentBase, n));
        (exponentBase * Pow(exponentBase, m - 1)) * Pow(exponentBase, n);
      }
    }
  }

  /** With a base of at least 1 every wait is at least 1 ms. */
  lemma {:induction false} BackoffPositive(exponentBase: int, n: nat)
    requires exponentBase >= 1
    ensures BackoffMs(exponentBase, n) >= 1
  {
    if n > 0 {
      BackoffPositive(exponentBase, n - 1);
      assert Pow(exponentBase, n) == exponentBase * Pow(exponentBase, n - 1);
    }
  }

  /** With a base of at least 2 each wait is strictly longer than the one before. */
  lemma BackoffIncreasing(exponentBase: int, n: nat)
    requires exponentBase >= 2
    ensures BackoffMs(exponentBase, n) < BackoffMs(exponentBase, n + 1)
  {
    BackoffPositive(exponentBase, n);
    assert Pow(exponentBase, n + 1) == exponentBase * Pow(exponentBase, n);
  }

  predicate IsConflict(o: UpdateOutcome) {
    o.UpdateThrew? && o.error.code == ResourceConflict
  }

  /** How many retries a chain starting at `retryCount` may still make. */
  function RetriesLeft(s: RetrySettings, retryCount: nat): nat {
    if retryCount < s.retryLimit then s.retryLimit - retryCount else 0
  }

  /** `updateFunctionConfiguration`: attempt number `attempt` of the chain, made with the
      module-level counter at `retryCount`. A conflict below the limit waits
      `exponentBase ** retryCount`, increments the counter and tries again; any other
      error, or a conflict at the limit, ends the chain with that error. */
  function UpdateFunctionConfiguration(request: UpdateRequest, s: RetrySettings, retryCount: nat,
                                       respond: nat -> UpdateOutcome, attempt: nat): (r: UpdateChain)
    decreases RetriesLeft(s, retryCount)
    ensures |r.requests| == |r.waits| + 1
    ensures forall i :: 0 <= i < |r.requests| ==> r.requests[i] == request
    ensures r.retryCount == retryCount + |r.waits|
    ensures |r.waits| <= RetriesLeft(s, retryCount)
    ensures forall i :: 0 <= i < |r.waits| ==> r.waits[i] == BackoffMs(s.exponentBase, retryCount + i)
    ensures forall j :: attempt <= j < attempt + |r.waits| ==> IsConflict(respond(j))
    ensures respond(attempt + |r.waits|) == UpdateOk <==> r.outcome == Pass
    ensures respond(attempt + |r.waits|).UpdateThrew? ==>
              && r.outcome == Fail(respond(attempt + |r.waits|).error)
              && !(IsConflict(respond(attempt + |r.waits|)) && r.retryCount < s.retryLimit)
  {
    match respond(attempt)
    case UpdateOk => UpdateChain(Pass, [request], [], retryCount)
    case UpdateThrew(err) =>
      if err.code == ResourceConflict && retryCount < s.retryLimit then
        var wait := BackoffMs(s.exponentBase, retryCount);
        var rest := UpdateFunctionConfiguration(request, s, retryCount + 1, respond, attempt + 1);
        UpdateChain(rest.outcome, [request] + rest.requests, [wait] + rest.waits, rest.retryCount)
      else
        UpdateChain(Fail(err), [request], [], retryCount)
  }

  /** The whole run of `updateEnvironmentVariable`, from the configuration read on. */
  function UpdateEnvironmentVariable(lambdaFunctionName: string, envVarName: string, envVarValue: string,
                                     lookup: ConfigLookup, s: RetrySettings, retryCount: nat,
                                     respond: nat -> UpdateOutcome): (r: UpdateChain)
    ensures lookup.GetThrew? ==> r == UpdateChain(Fail(lookup.error), [], [], retryCount)
    ensures lookup.Got? ==>
              && |r.requests| >= 1
              && forall i :: 0 <= i < |r.requests| ==>
                   r.requests[i] == UpdateRequest(lambdaFunctionName, MergeEnvironment(lookup.config, envVarName, envVarValue))
    ensures r.retryCount >= retryCount
    ensures lookup.Got? ==>
              && r.retryCount == retryCount + |r.waits|
              && |r.waits| <= RetriesLeft(s, retryCount)
              && (forall i :: 0 <= i < |r.waits| ==> r.waits[i] == BackoffMs(s.exponentBase, retryCount + i))
              && (forall j :: 0 <= j < |r.waits| ==> IsConflict(respond(j)))
              && (respond(|r.waits|) == UpdateOk <==> r.outcome == Pass)
              && (respond(|r.waits|).UpdateThrew? ==>
                    && r.outcome == Fail(respond(|r.waits|).error)
                    && !(IsConflict(respond(|r.waits|)) && r.retryCount < s.retryLimit))
  {
    match lookup
    case GetThrew(e) => UpdateChain(Fail(e), [], [], retryCount)
    case Got(config) =>
      var request := UpdateRequest(lambdaFunctionName, MergeEnvironment(config, envVarName, envVarValue));
      UpdateFunctionConfiguration(request, s, retryCount, respond, 0)
  }

  /** The script starts the module-level counter at 0, so it makes at most
      `retryLimit + 1` update attempts (exactly one when the limit is not positive). */
  lemma AttemptBound(request: UpdateRequest, s: RetrySettings, respond: nat -> UpdateOutcome)
    ensures var r := UpdateFunctionConfiguration(request, s, 0, respond, 0);
      && |r.requests| <= (if s.retryLimit > 0 then s.retryLimit else 0) + 1
      && (s.retryLimit <= 0 ==> |r.requests| == 1 && r.waits == [])
  {
  }

  /** A chain that only ever meets conflicts retries until the counter reaches the limit,
      then fails with the last conflict, unchanged. */
  lemma {:induction false} RetryExhaustion(request: UpdateRequest, s: RetrySettings, retryCount: nat,
                                           e: AwsError, attempt: nat)
    requires e.code == ResourceConflict && retryCount <= s.retryLimit
    ensures var r := UpdateFunctionConfiguration(request, s, retryCount, _ => UpdateThrew(e), attempt);
      && r.outcome == Fail(e)
      && r.retryCount == s.retryLimit
      && |r.waits| == s.retryLimit - retryCount
      && |r.requests| == s.retryLimit - retryCount + 1
    decreases s.retryLimit - retryCount
  {
    if retryCount < s.retryLimit {
      RetryExhaustion(request, s, retryCount + 1, e, attempt + 1);
    }
  }

  /** Any error other than a conflict ends the chain at once and is passed on unchanged. */
  lemma OtherErrorsPropagate(request: UpdateRequest, s: RetrySettings, retryCount: nat,
                             respond: nat -> UpdateOutcome, attempt: nat)
    requires respond(attempt).UpdateThrew? && respond(attempt).error.code != ResourceConflict
    ensures UpdateFunctionConfiguration(request, s, retryCount, respond, attempt)
         == UpdateChain(Fail(respond(attempt).error), [request], [], retryCount)
  {
  }

  /** Two conflicts, then success, with a limit of 3 and base 2: the update succeeds on
      the third attempt after waits of 1 and 2 milliseconds. */
  lemma TwoConflictsThenSuccess(request: UpdateRequest, e: AwsError)
    requires e.code == ResourceConflict
    ensures var r := UpdateFunctionConfiguration(request, RetrySettings(3, 2), 0,
                                                 j => if j < 2 then UpdateThrew(e) else UpdateOk, 0);
      && r.outcome == Pass
      && |r.requests| == 3
      && r.waits == [1, 2]
      && r.retryCount == 2
  {
  }

  /** With base 2 the successive waits are 1, 2, 4, ...: each is twice the one before. */
  lemma WaitsDoubleForBaseTwo(request: UpdateRequest, retryLimit: int, respond: nat -> UpdateOutcome)
    ensures var r := UpdateFunctionConfiguration(request, RetrySettings(retryLimit, 2), 0, respond, 0);
      && (|r.waits| > 0 ==> r.waits[0] == 1)
      && (forall i :: 0 < i < |r.waits| ==> r.waits[i] == 2 * r.waits[i - 1])
  {
  }
}

=== FILE: queue_urls.dfy ===
/**
 The SQS queue URL that `built/sqsToLambda.js` and `src/testScript.ts` build by
 hand, `https://sqs.<region>.amazonaws.com/<accountId>/<queueName>`, and a parser
 that takes such a URL apart again.
 */
module QueueUrls {
  import opened Aws

  const Scheme := "https://sqs."
  const Domain := ".amazonaws.com"

  datatype QueueAddress = QueueAddress(region: string, accountId: string, queueName: string)

  /** `https://sqs.<region>.amazonaws.com/<accountId>/<queueName>`. */
  function QueueUrl(a: QueueAddress): (url: string)
    ensures |url| == |Scheme| + |a.region| + |Domain| + |a.accountId| + |a.queueName| + 2
    ensures url[..|Scheme|] == Scheme
    ensures url[|url| - |a.queueName| - 1..] == ['/'] + a.queueName
  {
    var url := Scheme + a.region + Domain + "/" + a.accountId + "/" + a.queueName;
    assert url == Scheme + (a.region + Domain + "/" + a.accountId) + (['/'] + a.queueName);
    url
  }

  /** Splits `s` at the first occurrence of `c`. */
  function SplitAtFirst(s: string, c: char): (r: Option<(string, string)>)
    ensures r.Some? ==> s == r.value.0 + [c] + r.value.1 && c !in r.value.0
    ensures r.None? ==> c !in s
  {
    if |s| == 0 then None
    else if s[0] == c then
      assert s == [] + [c] + s[1..];
      Some(([], s[1..]))
    else match SplitAtFirst(s[1..], c)
      case None => None
      case Some(parts) =>
        assert s == [s[0]] + s[1..];
        Some(([s[0]] + parts.0, parts.1))
  }

  lemma {:induction false} SplitAtFirstOf(a: string, c: char, b: string)
    requires c !in a
    ensures SplitAtFirst(a + [c] + b, c) == Some((a, b))
  {
    if |a| == 0 {
      assert a + [c] + b == [c] + b;
    } else {
      assert (a + [c] + b)[1..] == a[1..] + [c] + b;
      SplitAtFirstOf(a[1..], c, b);
      assert [a[0]] + a[1..] == a;
    }
  }

  function StripPrefix(s: string, prefix: string): (r: Option<string>)
    ensures r.Some? ==> s == prefix + r.value
  {
    if |prefix| <= |s| && s[..|prefix|] == prefix then
      assert s == s[..|prefix|] + s[|prefix|..];
      Some(s[|prefix|..])
    else None
  }

  function StripSuffix(s: string, suffix: string): (r: Option<string>)
    ensures r.Some? ==> s == r.value + suffix
  {
    if |suffix| <= |s| && s[|s| - |suffix|..] == suffix then
      assert s == s[..|s| - |suffix|] + s[|s| - |suffix|..];
      Some(s[..|s| - |suffix|])
    else None
  }

  /** The four pieces the parser cuts a URL into put it back together. */
  lemma Assemble(url: string, afterScheme: string, host: string, path: string, a: QueueAddress)
    requires url == Scheme + afterScheme
    requires afterScheme == host + ['/'] + path
    requires host == a.region + Domain
    requires path == a.accountId + ['/'] + a.queueName
    ensures QueueUrl(a) == url
  {
    assert "/" == ['/'];
  }

  /** Reads a queue URL back into its region, account id and queue name. The region
      ends at the first '/', the account id at the next one; the queue name is the rest. */
  function ParseQueueUrl(url: string): (r: Option<QueueAddress>)
    ensures r.Some? ==> QueueUrl(r.value) == url
  {
    match StripPrefix(url, Scheme)
    case None => None
    case Some(afterScheme) =>
      match SplitAtFirst(afterScheme, '/')
      case None => None
      case Some(hostAndPath) =>
        match StripSuffix(hostAndPath.0, Domain)
        case None => None
        case Some(region) =>
          match SplitAtFirst(hostAndPath.1, '/')
          case None => None
          case Some(accountAndName) =>
            var a := QueueAddress(region, accountAndName.0, accountAndName.1);
            Assemble(url, afterScheme, hostAndPath.0, hostAndPath.1, a);
            Some(a)
  }

  /** A URL built from a region and an account id that hold no '/' reads back as the
      same address; the queue name may be anything. */
  lemma QueueUrlRoundTrip(a: QueueAddress)
    requires '/' !in a.region && '/' !in a.accountId
    ensures ParseQueueUrl(QueueUrl(a)) == Some(a)
  {
    var host := a.region + Domain;
    var rest := a.accountId + "/" + a.queueName;
    var afterScheme := host + "/" + rest;
    assert QueueUrl(a) == Scheme + afterScheme;
    assert StripPrefix(QueueUrl(a), Scheme) == Some(afterScheme) by {
      assert (Scheme + afterScheme)[..|Scheme|] == Scheme;
      assert (Scheme + afterScheme)[|Scheme|..] == afterScheme;
    }
    assert '/' !in host by {
      assert '/' !in Domain;
    }
    SplitAtFirstOf(host, '/', rest);
    assert StripSuffix(host, Domain) == Some(a.region) by {
      assert host[|host| - |Domain|..] == Domain;
      assert host[..|host| - |Domain|] == a.region;
    }
    SplitAtFirstOf(a.accountId, '/', a.queueName);
  }
}

=== FILE: redrive.dfy ===
/**
 The redrive loop shared by `src/sqsToLambda.ts`, `built/sqsToLambda.js` and
 `src/testScript.ts`: receive a batch from the dead-letter queue, invoke the
 Lambda asynchronously with each message body, delete each message whose
 invocation answered 202, and receive again until a receive answers with no
 `Messages` field or an empty array.

 The loop is written the way the scripts write it (an accumulator threaded
 through the messages and the batches). Beside it stand reference definitions
 that say, message by message, what the outcome of the whole run must be
 (`Handled`, `FateOf`, `FailedIds`, `InvokesFor`, `DeletesFor`, `ExpectedTrace`), and
 `RunMatchesReference` proves the two agree on every script.
 */
module Redrive {
  import opened Aws

  /** Receive parameters, identical in the three variants. */
  const MaxNumberOfMessages := 10
  const VisibilityTimeout := 40
  const WaitTimeSeconds := 15

  /** Lambda's status code for an accepted asynchronous ("Event") invocation. */
  const Accepted := 202

  /** Where a run sends its requests: the resolved queue URL, the Lambda function name,
      and whether the receive request asks for `AttributeNames: ['All']`. */
  datatype Target = Target(queueUrl: string, functionName: string, allAttributes: bool)

  function ReceiveCall(t: Target): Call {
    ReceiveMessage(ReceiveRequest(t.queueUrl, MaxNumberOfMessages, VisibilityTimeout, WaitTimeSeconds, t.allAttributes))
  }

  function InvokeCall(t: Target, m: Message): Call {
    Invoke(InvokeRequest(t.functionName, "Event", JsonOf(m.body)))
  }

  function DeleteCall(t: Target, m: Message): Call {
    DeleteMessage(DeleteRequest(t.queueUrl, m.receiptHandle))
  }

  /** The counters the scripts print at the end: `totalMessagesReceived`,
      `totalMessagesReprocessed` and the `failedMessages` list. */
  datatype Stats = Stats(received: nat, reprocessed: nat, failed: seq<string>)

  const NoStats := Stats(0, 0, [])

  /** The loop's state between two steps: the counters and the requests issued so far. */
  datatype Progress = Progress(stats: Stats, calls: seq<Call>)

  /** How a run ends.
      - Completed: the loop stopped normally and the totals are printed;
      - NoQueueUrl: the queue URL lookup gave nothing, the script returned at once;
      - NoMessagesReceived: the first receive had no `Messages` field, the script returned at once;
      - Crashed: an SDK call outside the per-message try/catch threw; `main` rejects with that error. */
  datatype End = Completed | NoQueueUrl | NoMessagesReceived | Crashed(error: AwsError)

  datatype RunResult = RunResult(end: End, stats: Stats, calls: seq<Call>)

  /** A request is one the run with target `t` may issue: receives and deletes go to
      the resolved queue URL, invocations go to the target function as "Event". */
  predicate CallFor(c: Call, t: Target) {
    match c
    case GetQueueUrl(_) => true
    case ReceiveMessage(_) => c == ReceiveCall(t)
    case Invoke(req) => req.functionName == t.functionName && req.invocationType == "Event"
    case DeleteMessage(req) => req.queueUrl == t.queueUrl
  }

  predicate ForTarget(calls: seq<Call>, t: Target) {
    forall i :: 0 <= i < |calls| ==> CallFor(calls[i], t)
  }

  // ---------------------------------------------------------------------------
  // Reference definitions: what happens to each message, independent of the loop.
  // ---------------------------------------------------------------------------

  /** Where one handled message ends up. */
  datatype Fate = Reprocessed | Failed | Untouched

  /** Reprocessed: the invocation answered 202 and the delete completed.
      Failed: the invocation threw, or it answered 202 and the delete threw.
      Untouched: the invocation answered with another status without throwing;
      such a message is counted in neither bucket and is not deleted. */
  function FateOf(d: Delivery): Fate {
    if d.invoke.InvokeThrew? then Failed
    else if d.invoke.statusCode != Accepted then Untouched
    else if d.delete.DeleteThrew? then Failed
    else Reprocessed
  }

  /** The while condition `Messages && Messages.length > 0`, applied to the answer to
      the receive issued last (`script[0]`). */
  predicate Continues(script: seq<ReceiveOutcome>) {
    |script| > 0 && script[0].Received? && |script[0].messages| > 0
  }

  function FirstReceive(script: seq<ReceiveOutcome>): ReceiveOutcome {
    if |script| == 0 then NoMessagesField else script[0]
  }

  /** The batches the loop handles, in order: every non-empty batch up to the first
      receive that answers with no `Messages` field, with an empty array, or throws.
      A script that runs out behaves like a receive with no `Messages` field. */
  function Batches(script: seq<ReceiveOutcome>): (bs: seq<seq<Delivery>>)
    ensures forall i :: 0 <= i < |bs| ==> |bs[i]| > 0
  {
    if Continues(script) then [script[0].messages] + Batches(script[1..]) else []
  }

  function Flatten(bs: seq<seq<Delivery>>): seq<Delivery> {
    if |bs| == 0 then [] else bs[0] + Flatten(bs[1..])
  }

  /** Every message the loop handles, in the order it handles them. */
  function Handled(script: seq<ReceiveOutcome>): seq<Delivery> {
    Flatten(Batches(script))
  }

  /** The receive answer that ends the loop. */
  function StopOf(script: seq<ReceiveOutcome>): ReceiveOutcome {
    if Continues(script) then StopOf(script[1..])
    else if |script| == 0 then NoMessagesField
    else script[0]
  }

  /** How the run ends, read off the receive answers alone. */
  function ExpectedEnd(script: seq<ReceiveOutcome>): End {
    if FirstReceive(script) == NoMessagesField then NoMessagesReceived
    else match StopOf(script)
      case ReceiveThrew(e) => Crashed(e)
      case _ => Completed
  }

  function CountFate(ds: seq<Delivery>, f: Fate): nat {
    if |ds| == 0 then 0 else (if FateOf(ds[0]) == f then 1 else 0) + CountFate(ds[1..], f)
  }

  /** The ids of the failed messages, in handling order. */
  function FailedIds(ds: seq<Delivery>): seq<string> {
    if |ds| == 0 then []
    else (if FateOf(ds[0]) == Failed then [ds[0].message.messageId] else []) + FailedIds(ds[1..])
  }

  /** One invocation per handled message, in order, each carrying that message's body. */
  function InvokesFor(t: Target, ds: seq<Delivery>): seq<Call> {
    if |ds| == 0 then [] else [InvokeCall(t, ds[0].message)] + InvokesFor(t, ds[1..])
  }

  /** One delete per message whose invocation answered 202, in order, each with that
      message's own receipt handle. */
  function DeletesFor(t: Target, ds: seq<Delivery>): seq<Call> {
    if |ds| == 0 then []
    else
      (if ds[0].invoke == Responded(Accepted) then [DeleteCall(t, ds[0].message)] else [])
      + DeletesFor(t, ds[1..])
  }

  function Repeat(c: Call, n: nat): (r: seq<Call>)
    ensures |r| == n
    ensures forall i :: 0 <= i < n ==> r[i] == c
  {
    if n == 0 then [] else [c] + Repeat(c, n - 1)
  }

  /** The requests one message causes, in order: its invocation, then its delete when
      the invocation answered 202. */
  function MessageCalls(t: Target, d: Delivery): seq<Call> {
    [InvokeCall(t, d.message)] + (if d.invoke == Responded(Accepted) then [DeleteCall(t, d.message)] else [])
  }

  /** The requests a batch causes: message after message, each one's complete before
      the next one's begin. */
  function BatchCalls(t: Target, b: seq<Delivery>): seq<Call> {
    if |b| == 0 then [] else MessageCalls(t, b[0]) + BatchCalls(t, b[1..])
  }

  /** The requests the while loop issues over the batches `bs`: each batch's requests,
      then the receive for the next batch. */
  function LoopCalls(t: Target, bs: seq<seq<Delivery>>): seq<Call> {
    if |bs| == 0 then [] else BatchCalls(t, bs[0]) + [ReceiveCall(t)] + LoopCalls(t, bs[1..])
  }

  /** The whole trace of a run, in issue order: the first receive, then the loop's. */
  function ExpectedTrace(t: Target, script: seq<ReceiveOutcome>): seq<Call> {
    [ReceiveCall(t)] + LoopCalls(t, Batches(script))
  }

  // ---------------------------------------------------------------------------
  // The loop, as the scripts write it.
  // ---------------------------------------------------------------------------

  /** The try/catch body for one message: invoke; on 202 delete, then count it as
      reprocessed; any throw appends the message id to the failed list. */
  function HandleMessage(t: Target, d: Delivery, p: Progress): (r: Progress)
    ensures ForTarget(p.calls, t) ==> ForTarget(r.calls, t)
    ensures r.stats.received == p.stats.received
    ensures r.stats.reprocessed + |r.stats.failed| <= p.stats.reprocessed + |p.stats.failed| + 1
  {
    var invoked := p.calls + [InvokeCall(t, d.message)];
    match d.invoke
    case InvokeThrew(_) =>
      Progress(p.stats.(failed := p.stats.failed + [d.message.messageId]), invoked)
    case Responded(status) =>
      if status == Accepted then
        var deleted := invoked + [DeleteCall(t, d.message)];
        match d.delete
        case Deleted => Progress(p.stats.(reprocessed := p.stats.reprocessed + 1), deleted)
        case DeleteThrew(_) => Progress(p.stats.(failed := p.stats.failed + [d.message.messageId]), deleted)
      else
        Progress(p.stats, invoked)
  }

  /** One pass of the while loop's body over the batch `b`: count the batch, handle its
      messages, then receive again. */
  function NextProgress(t: Target, b: seq<Delivery>, p: Progress): (r: Progress)
    ensures ForTarget(p.calls, t) ==> ForTarget(r.calls, t)
    ensures r.stats.received == p.stats.received + |b|
    ensures r.stats.reprocessed + |r.stats.failed| <= p.stats.reprocessed + |p.stats.failed| + |b|
  {
    var handled := HandleBatch(t, b, p.(stats := p.stats.(received := p.stats.received + |b|)));
    handled.(calls := handled.calls + [ReceiveCall(t)])
  }

  /** The `for (const currMessage of Messages)` loop over one batch. */
  function HandleBatch(t: Target, b: seq<Delivery>, p: Progress): (r: Progress)
    decreases |b|
    ensures ForTarget(p.calls, t) ==> ForTarget(r.calls, t)
    ensures r.stats.received == p.stats.received
    ensures r.stats.reprocessed + |r.stats.failed| <= p.stats.reprocessed + |p.stats.failed| + |b|
  {
    if |b| == 0 then p else HandleBatch(t, b[1..], HandleMessage(t, b[0], p))
  }

  /** The `while (Messages && Messages.length > 0)` loop. `script[0]` answers the
      receive issued last (already in `p.calls`); a script that runs out answers
      with no `Messages` field. */
  function Drain(t: Target, script: seq<ReceiveOutcome>, p: Progress): (r: RunResult)
    decreases |script|
    ensures r.end == Completed || r.end.Crashed?
    ensures ForTarget(p.calls, t) ==> ForTarget(r.calls, t)
    ensures r.stats.received >= p.stats.received
    ensures p.stats.reprocessed + |p.stats.failed| <= p.stats.received ==>
              r.stats.reprocessed + |r.stats.failed| <= r.stats.received
  {
    if Continues(script) then
      Drain(t, script[1..], NextProgress(t, script[0].messages, p))
    else if |script| > 0 && script[0].ReceiveThrew? then
      RunResult(Crashed(script[0].error), p.stats, p.calls)
    else
      RunResult(Completed, p.stats, p.calls)
  }

  /** `main` from the first receive on: an absent first `Messages` field returns at
      once; otherwise the while loop runs (zero times for an empty array). */
  function Run(t: Target, script: seq<ReceiveOutcome>): (r: RunResult)
    ensures |r.calls| >= 1 && r.calls[0] == ReceiveCall(t)
    ensures ForTarget(r.calls, t)
    ensures r.end != NoQueueUrl
    ensures r.stats.reprocessed + |r.stats.failed| <= r.stats.received
    ensures FirstReceive(script) == NoMessagesField ==>
              r == RunResult(NoMessagesReceived, NoStats, [ReceiveCall(t)])
    ensures FirstReceive(script) == Received([]) ==>
              r == RunResult(Completed, NoStats, [ReceiveCall(t)])
  {
    var start := Progress(NoStats, [ReceiveCall(t)]);
    if FirstReceive(script) == NoMessagesField then
      RunResult(NoMessagesReceived, start.stats, start.calls)
    else
      DrainKeepsFirstCall(t, script, start);
      Drain(t, script, start)
  }

  // ---------------------------------------------------------------------------
  // The loop agrees with the reference definitions.
  // ---------------------------------------------------------------------------

  lemma {:induction false} DrainKeepsFirstCall(t: Target, script: seq<ReceiveOutcome>, p: Progress)
    requires |p.calls| >= 1
    ensures |Drain(t, script, p).calls| >= 1 && Drain(t, script, p).calls[0] == p.calls[0]
    decreases |script|
  {
    if Continues(script) {
      var b := script[0].messages;
      var counted := p.(stats := p.stats.(received := p.stats.received + |b|));
      HandleBatchExtendsCalls(t, b, counted);
      DrainKeepsFirstCall(t, script[1..], NextProgress(t, b, p));
    }
  }

  /** Handling a batch only appends requests: what was issued before stays as it was. */
  lemma {:induction false} HandleBatchExtendsCalls(t: Target, b: seq<Delivery>, p: Progress)
    ensures p.calls <= HandleBatch(t, b, p).calls
    decreases |b|
  {
    if |b| > 0 {
      var p1 := HandleMessage(t, b[0], p);
      assert p.calls <= p1.calls;
      HandleBatchExtendsCalls(t, b[1..], p1);
    }
  }

  lemma CallsOfKindAppendAll(a: seq<Call>, b: seq<Call>)
    ensures forall k :: CallsOfKind(a + b, k) == CallsOfKind(a, k) + CallsOfKind(b, k)
  {
    forall k {
      CallsOfKindAppend(a, b, k);
    }
  }

  /** The requests of kind `k` that handling the messages `ds` issues, in order. */
  function ExpectedCalls(t: Target, ds: seq<Delivery>, k: CallKind): seq<Call> {
    match k
    case InvokeKind => InvokesFor(t, ds)
    case DeleteKind => DeletesFor(t, ds)
    case _ => []
  }

  /** One message moves the counters as its fate says. */
  lemma HandleMessageStats(t: Target, d: Delivery, p: Progress)
    ensures HandleMessage(t, d, p).stats
         == Stats(p.stats.received, p.stats.reprocessed + CountFate([d], Reprocessed), p.stats.failed + FailedIds([d]))
  {
    assert [d][1..] == [];
  }

  /** One message: exactly one invocation, with that message's body, and a delete with
      that message's receipt handle exactly when the invocation answered 202. */
  lemma HandleMessageCalls(t: Target, d: Delivery, p: Progress, k: CallKind)
    ensures CallsOfKind(HandleMessage(t, d, p).calls, k) == CallsOfKind(p.calls, k) + ExpectedCalls(t, [d], k)
  {
    HandleMessageTrace(t, d, p);
    CallsOfKindAppend(p.calls, MessageCalls(t, d), k);
    MessageCallsOfKind(t, d, k);
  }

  lemma MessageCallsOfKind(t: Target, d: Delivery, k: CallKind)
    ensures CallsOfKind(MessageCalls(t, d), k) == ExpectedCalls(t, [d], k)
  {
    SingleMessageCalls(t, d);
    var invoke := [InvokeCall(t, d.message)];
    var delete := if d.invoke == Responded(Accepted) then [DeleteCall(t, d.message)] else [];
    CallsOfKindAppend(invoke, delete, k);
    assert CallsOfKind(invoke, k) == (if k == InvokeKind then invoke else []) + CallsOfKind([], k);
    if delete != [] {
      assert CallsOfKind(delete, k) == (if k == DeleteKind then delete else []) + CallsOfKind([], k);
    }
  }

  lemma SingleMessageCalls(t: Target, d: Delivery)
    ensures InvokesFor(t, [d]) == [InvokeCall(t, d.message)]
    ensures DeletesFor(t, [d]) == if d.invoke == Responded(Accepted) then [DeleteCall(t, d.message)] else []
  {
    assert [d][1..] == [];
  }

  lemma {:induction false} HandleBatchStats(t: Target, b: seq<Delivery>, p: Progress)
    ensures HandleBatch(t, b, p).stats
         == Stats(p.stats.received, p.stats.reprocessed + CountFate(b, Reprocessed), p.stats.failed + FailedIds(b))
    decreases |b|
  {
    if |b| > 0 {
      HandleMessageStats(t, b[0], p);
      HandleBatchStats(t, b[1..], HandleMessage(t, b[0], p));
      assert [b[0]][1..] == [];
    }
  }

  lemma {:induction false} HandleBatchCalls(t: Target, b: seq<Delivery>, p: Progress, k: CallKind)
    ensures CallsOfKind(HandleBatch(t, b, p).calls, k) == CallsOfKind(p.calls, k) + ExpectedCalls(t, b, k)
    decreases |b|
  {
    if |b| > 0 {
      HandleMessageCalls(t, b[0], p, k);
      HandleBatchCalls(t, b[1..], HandleMessage(t, b[0], p), k);
      ExpectedCallsCons(t, b, k);
    }
  }

  lemma FlattenAppend(bs: seq<seq<Delivery>>, b: seq<Delivery>)
    requires |bs| > 0 && bs[0] == b
    ensures Flatten(bs) == b + Flatten(bs[1..])
  {
  }

  lemma {:induction false} CountFateAppend(a: seq<Delivery>, b: seq<Delivery>, f: Fate)
    ensures CountFate(a + b, f) == CountFate(a, f) + CountFate(b, f)
  {
    if |a| > 0 {
      assert (a + b)[1..] == a[1..] + b;
      CountFateAppend(a[1..], b, f);
    } else {
      assert a + b == b;
    }
  }

  lemma {:induction false} FailedIdsAppend(a: seq<Delivery>, b: seq<Delivery>)
    ensures FailedIds(a + b) == FailedIds(a) + FailedIds(b)
  {
    if |a| > 0 {
      assert (a + b)[1..] == a[1..] + b;
      FailedIdsAppend(a[1..], b);
    } else {
      assert a + b == b;
    }
  }

  lemma {:induction false} ExpectedCallsAppend(t: Target, a: seq<Delivery>, b: seq<Delivery>, k: CallKind)
    ensures ExpectedCalls(t, a + b, k) == ExpectedCalls(t, a, k) + ExpectedCalls(t, b, k)
  {
    if |a| > 0 {
      assert (a + b)[1..] == a[1..] + b;
      ExpectedCallsAppend(t, a[1..], b, k);
    } else {
      assert a + b == b;
    }
  }

  lemma ExpectedCallsCons(t: Target, ds: seq<Delivery>, k: CallKind)
    requires |ds| > 0
    ensures ExpectedCalls(t, ds, k) == ExpectedCalls(t, [ds[0]], k) + ExpectedCalls(t, ds[1..], k)
  {
    assert [ds[0]] + ds[1..] == ds;
    ExpectedCallsAppend(t, [ds[0]], ds[1..], k);
  }

  /** A non-empty batch at the head of the script is handled first, then the rest. */
  lemma HandledCons(script: seq<ReceiveOutcome>)
    requires Continues(script)
    ensures Batches(script) == [script[0].messages] + Batches(script[1..])
    ensures Handled(script) == script[0].messages + Handled(script[1..])
  {
    FlattenAppend(Batches(script), script[0].messages);
  }

  /** One pass of the while loop: a non-empty batch is handled, then the loop goes on
      with the next receive answer. */
  lemma DrainStep(t: Target, script: seq<ReceiveOutcome>, p: Progress)
    requires Continues(script)
    ensures Drain(t, script, p) == Drain(t, script[1..], NextProgress(t, script[0].messages, p))
  {
  }

  /** One message issues its invocation and then, on 202, its delete; nothing else. */
  lemma HandleMessageTrace(t: Target, d: Delivery, p: Progress)
    ensures HandleMessage(t, d, p).calls == p.calls + MessageCalls(t, d)
  {
  }

  /** A batch issues its messages' requests message after message, in batch order. */
  lemma {:induction false} HandleBatchTrace(t: Target, b: seq<Delivery>, p: Progress)
    ensures HandleBatch(t, b, p).calls == p.calls + BatchCalls(t, b)
    decreases |b|
  {
    if |b| > 0 {
      var p1 := HandleMessage(t, b[0], p);
      HandleMessageTrace(t, b[0], p);
      HandleBatchTrace(t, b[1..], p1);
      assert p1.calls + BatchCalls(t, b[1..]) == p.calls + (MessageCalls(t, b[0]) + BatchCalls(t, b[1..]));
    } else {
      assert p.calls + [] == p.calls;
    }
  }

  /** One pass of the loop body issues the batch's requests, then one receive. */
  lemma NextTrace(t: Target, b: seq<Delivery>, p: Progress)
    ensures NextProgress(t, b, p).calls == p.calls + BatchCalls(t, b) + [ReceiveCall(t)]
  {
    HandleBatchTrace(t, b, p.(stats := p.stats.(received := p.stats.received + |b|)));
  }

  lemma {:induction false} DrainTrace(t: Target, script: seq<ReceiveOutcome>, p: Progress)
    ensures Drain(t, script, p).calls == p.calls + LoopCalls(t, Batches(script))
    decreases |script|
  {
    if Continues(script) {
      var b := script[0].messages;
      var rest := script[1..];
      var next := NextProgress(t, b, p);
      NextTrace(t, b, p);
      DrainTrace(t, rest, next);
      DrainStep(t, script, p);
      HandledCons(script);
      var bs := Batches(script);
      assert bs[0] == b && bs[1..] == Batches(rest);
      assert LoopCalls(t, bs) == BatchCalls(t, b) + [ReceiveCall(t)] + LoopCalls(t, Batches(rest));
      assert next.calls + LoopCalls(t, Batches(rest))
          == p.calls + (BatchCalls(t, b) + [ReceiveCall(t)] + LoopCalls(t, Batches(rest)));
    } else {
      assert Batches(script) == [];
      assert p.calls + [] == p.calls;
    }
  }

  /** The whole trace of a run, in order: the first receive; then, per handled batch,
      each message's invocation followed by its delete when it answered 202, and then
      the next receive. */
  lemma RunTrace(t: Target, script: seq<ReceiveOutcome>)
    ensures Run(t, script).calls == ExpectedTrace(t, script)
  {
    var start := Progress(NoStats, [ReceiveCall(t)]);
    if FirstReceive(script) != NoMessagesField {
      assert Run(t, script) == Drain(t, script, start);
      DrainTrace(t, script, start);
    } else {
      assert Batches(script) == [];
      assert [ReceiveCall(t)] + [] == [ReceiveCall(t)];
    }
  }

  lemma {:induction false} DrainStats(t: Target, script: seq<ReceiveOutcome>, p: Progress)
    ensures Drain(t, script, p).stats
         == Stats(p.stats.received + |Handled(script)|,
                  p.stats.reprocessed + CountFate(Handled(script), Reprocessed),
                  p.stats.failed + FailedIds(Handled(script)))
    decreases |script|
  {
    if Continues(script) {
      var b := script[0].messages;
      var rest := script[1..];
      var next := NextProgress(t, b, p);
      HandleBatchStats(t, b, p.(stats := p.stats.(received := p.stats.received + |b|)));
      assert next.stats
          == Stats(p.stats.received + |b|, p.stats.reprocessed + CountFate(b, Reprocessed), p.stats.failed + FailedIds(b));
      DrainStats(t, rest, next);
      DrainStep(t, script, p);
      HandledCons(script);
      CountFateAppend(b, Handled(rest), Reprocessed);
      FailedIdsAppend(b, Handled(rest));
    } else {
      assert Handled(script) == [];
      assert Drain(t, script, p).stats == p.stats;
    }
  }

  /** One pass of the loop body: the batch's invocations and deletes, then one receive. */
  lemma NextCalls(t: Target, b: seq<Delivery>, p: Progress, k: CallKind)
    ensures CallsOfKind(NextProgress(t, b, p).calls, k)
         == CallsOfKind(p.calls, k) + ExpectedCalls(t, b, k) + (if k == ReceiveKind then [ReceiveCall(t)] else [])
  {
    var counted := p.(stats := p.stats.(received := p.stats.received + |b|));
    HandleBatchCalls(t, b, counted, k);
    CallsOfKindAppend(HandleBatch(t, b, counted).calls, [ReceiveCall(t)], k);
  }

  lemma {:induction false} DrainCalls(t: Target, script: seq<ReceiveOutcome>, p: Progress, k: CallKind)
    requires k != ReceiveKind
    ensures CallsOfKind(Drain(t, script, p).calls, k)
         == CallsOfKind(p.calls, k) + ExpectedCalls(t, Handled(script), k)
    decreases |script|
  {
    if Continues(script) {
      var b := script[0].messages;
      var rest := script[1..];
      var next := NextProgress(t, b, p);
      NextCalls(t, b, p, k);
      DrainCalls(t, rest, next, k);
      DrainStep(t, script, p);
      HandledCons(script);
      ExpectedCallsAppend(t, b, Handled(rest), k);
    } else {
      assert Handled(script) == [];
    }
  }

  /** One receive per handled batch, each with the same request. */
  lemma {:induction false} DrainReceives(t: Target, script: seq<ReceiveOutcome>, p: Progress)
    ensures CallsOfKind(Drain(t, script, p).calls, ReceiveKind)
         == CallsOfKind(p.calls, ReceiveKind) + Repeat(ReceiveCall(t), |Batches(script)|)
    decreases |script|
  {
    if Continues(script) {
      var b := script[0].messages;
      var rest := script[1..];
      NextCalls(t, b, p, ReceiveKind);
      DrainReceives(t, rest, NextProgress(t, b, p));
      DrainStep(t, script, p);
      HandledCons(script);
      assert Repeat(ReceiveCall(t), |Batches(script)|)
          == [ReceiveCall(t)] + Repeat(ReceiveCall(t), |Batches(rest)|);
    } else {
      assert Batches(script) == [];
    }
  }

  lemma {:induction false} DrainEnd(t: Target, script: seq<ReceiveOutcome>, p: Progress)
    ensures Drain(t, script, p).end
         == (if StopOf(script).ReceiveThrew? then Crashed(StopOf(script).error) else Completed)
    decreases |script|
  {
    if Continues(script) {
      DrainEnd(t, script[1..], NextProgress(t, script[0].messages, p));
    }
  }

  /** The counters and the end of a whole run, read off the handled messages and the
      receive answers. */
  lemma RunStats(t: Target, script: seq<ReceiveOutcome>)
    ensures var r := Run(t, script);
      var ds := Handled(script);
      && r.stats == Stats(|ds|, CountFate(ds, Reprocessed), FailedIds(ds))
      && r.end == ExpectedEnd(script)
  {
    var start := Progress(NoStats, [ReceiveCall(t)]);
    if FirstReceive(script) != NoMessagesField {
      assert Run(t, script) == Drain(t, script, start);
      DrainStats(t, script, start);
      DrainEnd(t, script, start);
    } else {
      assert Batches(script) == [];
    }
  }

  /** The requests of a whole run, kind by kind. */
  lemma RunCalls(t: Target, script: seq<ReceiveOutcome>)
    ensures var r := Run(t, script);
      var ds := Handled(script);
      && CallsOfKind(r.calls, InvokeKind) == InvokesFor(t, ds)
      && CallsOfKind(r.calls, DeleteKind) == DeletesFor(t, ds)
      && CallsOfKind(r.calls, ReceiveKind) == Repeat(ReceiveCall(t), 1 + |Batches(script)|)
      && CallsOfKind(r.calls, LookupKind) == []
  {
    var start := Progress(NoStats, [ReceiveCall(t)]);
    assert CallsOfKind(start.calls, ReceiveKind) == [ReceiveCall(t)];
    assert Repeat(ReceiveCall(t), 1 + |Batches(script)|)
        == [ReceiveCall(t)] + Repeat(ReceiveCall(t), |Batches(script)|);
    if FirstReceive(script) != NoMessagesField {
      assert Run(t, script) == Drain(t, script, start);
      DrainCalls(t, script, start, InvokeKind);
      DrainCalls(t, script, start, DeleteKind);
      DrainCalls(t, script, start, LookupKind);
      DrainReceives(t, script, start);
    } else {
      assert Batches(script) == [];
    }
  }

  /** The whole run, message by message: the received total is the number of handled
      messages; the reprocessed total and the ordered failed list are exactly those of
      the messages whose fate says so; one invocation per handled message, in order; a
      delete exactly for the messages whose invocation answered 202, in order, each
      with its own receipt handle and right after that message's invocation; one
      receive per handled batch plus the first; and the run ends as the receive
      answers dictate. */
  lemma RunMatchesReference(t: Target, script: seq<ReceiveOutcome>)
    ensures var r := Run(t, script);
      var ds := Handled(script);
      && r.stats.received == |ds|
      && r.stats.reprocessed == CountFate(ds, Reprocessed)
      && r.stats.failed == FailedIds(ds)
      && CallsOfKind(r.calls, InvokeKind) == InvokesFor(t, ds)
      && CallsOfKind(r.calls, DeleteKind) == DeletesFor(t, ds)
      && CallsOfKind(r.calls, ReceiveKind) == Repeat(ReceiveCall(t), 1 + |Batches(script)|)
      && CallsOfKind(r.calls, LookupKind) == []
      && r.calls == ExpectedTrace(t, script)
      && r.end == ExpectedEnd(script)
  {
    RunStats(t, script);
    RunCalls(t, script);
    RunTrace(t, script);
  }

  lemma {:induction false} FatePartition(ds: seq<Delivery>)
    ensures |FailedIds(ds)| == CountFate(ds, Failed)
    ensures |ds| == CountFate(ds, Reprocessed) + CountFate(ds, Failed) + CountFate(ds, Untouched)
  {
    if |ds| > 0 {
      FatePartition(ds[1..]);
    }
  }

  /** Every received message lands in exactly one of reprocessed, failed, or neither
      (an invocation that answered without throwing but not with 202). */
  lemma RunPartition(t: Target, script: seq<ReceiveOutcome>)
    ensures var r := Run(t, script);
      r.stats.received == r.stats.reprocessed + |r.stats.failed| + CountFate(Handled(script), Untouched)
  {
    RunMatchesReference(t, script);
    FatePartition(Handled(script));
  }

  /** A throw from the invocation or the delete of one message records that message's id
      and processing goes on: every message of the batch is still invoked. */
  lemma FailureDoesNotAbortBatch(t: Target, b: seq<Delivery>, i: int)
    requires 0 <= i < |b| && FateOf(b[i]) == Failed
    requires forall j :: 0 <= j < |b| && j != i ==> FateOf(b[j]) != Failed
    ensures var r := Run(t, [Received(b)]);
      && r.end == Completed
      && r.stats.failed == [b[i].message.messageId]
      && CallsOfKind(r.calls, InvokeKind) == InvokesFor(t, b)
      && |CallsOfKind(r.calls, InvokeKind)| == |b|
  {
    var script := [Received(b)];
    assert script[1..] == [];
    HandledCons(script);
    assert Handled(script) == b;
    assert StopOf(script) == StopOf(script[1..]) == NoMessagesField;
    RunMatchesReference(t, script);
    OnlyFailedId(b, i);
    InvokesForLength(t, b);
  }

  lemma {:induction false} OnlyFailedId(b: seq<Delivery>, i: int)
    requires 0 <= i < |b| && FateOf(b[i]) == Failed
    requires forall j :: 0 <= j < |b| && j != i ==> FateOf(b[j]) != Failed
    ensures FailedIds(b) == [b[i].message.messageId]
    decreases |b|
  {
    if i == 0 {
      NoFailedIds(b[1..]);
    } else {
      OnlyFailedId(b[1..], i - 1);
    }
  }

  lemma {:induction false} NoFailedIds(b: seq<Delivery>)
    requires forall j :: 0 <= j < |b| ==> FateOf(b[j]) != Failed
    ensures FailedIds(b) == []
    decreases |b|
  {
    if |b| > 0 {
      NoFailedIds(b[1..]);
    }
  }

  lemma {:induction false} InvokesForLength(t: Target, ds: seq<Delivery>)
    ensures |InvokesFor(t, ds)| == |ds|
  {
    if |ds| > 0 {
      InvokesForLength(t, ds[1..]);
    }
  }

  /** A batch whose every invocation answers 202 and whose every delete completes is
      fully reprocessed: all counted, none failed, one delete per message. */
  lemma AllAcceptedBatch(t: Target, b: seq<Delivery>)
    requires forall j :: 0 <= j < |b| ==> b[j].invoke == Responded(Accepted) && b[j].delete == Deleted
    ensures var r := Run(t, [Received(b)]);
      && r.end == Completed
      && r.stats == Stats(|b|, |b|, [])
      && CallsOfKind(r.calls, DeleteKind) == DeletesFor(t, b)
      && |CallsOfKind(r.calls, DeleteKind)| == |b|
      && forall j :: 0 <= j < |b| ==> CallsOfKind(r.calls, DeleteKind)[j] == DeleteCall(t, b[j].message)
  {
    var script := [Received(b)];
    if |b| == 0 {
      assert CallsOfKind([ReceiveCall(t)], DeleteKind) == [] + CallsOfKind([], DeleteKind);
      return;
    }
    assert script[1..] == [];
    HandledCons(script);
    assert Handled(script) == b;
    assert StopOf(script) == StopOf(script[1..]) == NoMessagesField;
    RunMatchesReference(t, script);
    AllReprocessed(t, b);
    NoFailedIds(b);
    forall j | 0 <= j < |b|
      ensures DeletesFor(t, b)[j] == DeleteCall(t, b[j].message)
    {
      AllAcceptedDeletes(t, b, j);
    }
  }

  /** When every invocation of `ds` answered 202, the j-th delete is for the j-th
      message, with that message's receipt handle. */
  lemma {:induction false} AllAcceptedDeletes(t: Target, ds: seq<Delivery>, j: int)
    requires forall i :: 0 <= i < |ds| ==> ds[i].invoke == Responded(Accepted)
    requires 0 <= j < |ds|
    ensures |DeletesFor(t, ds)| == |ds|
    ensures DeletesFor(t, ds)[j] == DeleteCall(t, ds[j].message)
    decreases |ds|
  {
    if j > 0 {
      AllAcceptedDeletes(t, ds[1..], j - 1);
    } else if |ds| > 1 {
      AllAcceptedDeletes(t, ds[1..], 0);
    }
  }

  lemma {:induction false} AllReprocessed(t: Target, b: seq<Delivery>)
    requires forall j :: 0 <= j < |b| ==> b[j].invoke == Responded(Accepted) && b[j].delete == Deleted
    ensures CountFate(b, Reprocessed) == |b|
    ensures |DeletesFor(t, b)| == |b|
    decreases |b|
  {
    if |b| > 0 {
      AllReprocessed(t, b[1..]);
    }
  }

  /** A message whose invocation answers with a status other than 202, without
      throwing, is counted as received only: not reprocessed, not failed, not deleted. */
  lemma NotAcceptedCountsNowhere(t: Target, d: Delivery)
    requires d.invoke.Responded? && d.invoke.statusCode != Accepted
    ensures var r := Run(t, [Received([d])]);
      && r.end == Completed
      && r.stats == Stats(1, 0, [])
      && CallsOfKind(r.calls, DeleteKind) == []
  {
    var script := [Received([d])];
    assert script[1..] == [];
    HandledCons(script);
    assert Handled(script) == [d];
    assert StopOf(script) == StopOf(script[1..]) == NoMessagesField;
    RunMatchesReference(t, script);
    assert [d][1..] == [];
  }

  /** The i-th invocation is for the i-th handled message and carries its body. */
  lemma {:induction false} InvokesForIndex(t: Target, ds: seq<Delivery>, i: int)
    requires 0 <= i < |ds|
    ensures |InvokesFor(t, ds)| == |ds|
    ensures InvokesFor(t, ds)[i] == InvokeCall(t, ds[i].message)
  {
    InvokesForLength(t, ds);
    if i > 0 {
      InvokesForIndex(t, ds[1..], i - 1);
    }
  }

  /** The queue URL a receive or delete request is sent to. */
  function SentTo(c: Call): Option<string> {
    match c
    case ReceiveMessage(req) => Some(req.queueUrl)
    case DeleteMessage(req) => Some(req.queueUrl)
    case _ => None
  }

  /** Within a run, every receive and every delete goes to the one resolved queue URL. */
  lemma OneQueueUrl(calls: seq<Call>, t: Target, i: int)
    requires ForTarget(calls, t) && 0 <= i < |calls|
    ensures SentTo(calls[i]).Some? ==> SentTo(calls[i]).value == t.queueUrl
  {
    assert CallFor(calls[i], t);
  }
}

=== FILE: sqs_to_lambda.dfy ===
/**
 `main` of `src/sqsToLambda.ts`: look up the queue URL by name, then run the
 redrive loop against that URL with the Lambda named in the environment.
 */
module SqsToLambda {
  import opened Aws
  import opened Redrive

  /** What `sqs.getQueueUrl(...)` does: answer, with or without a `QueueUrl`, or throw. */
  datatype UrlLookup = UrlAnswer(queueUrl: Option<string>) | UrlThrew(error: AwsError)

  /** The URL the lookup resolves to; `!queueUrl` rejects both an absent URL and "". */
  function ResolvedUrl(lookup: UrlLookup): (r: Option<string>)
    ensures r.Some? <==> lookup.UrlAnswer? && lookup.queueUrl.Some? && |lookup.queueUrl.value| > 0
    ensures r.Some? ==> r.value == lookup.queueUrl.value
  {
    match lookup
    case UrlThrew(_) => None
    case UrlAnswer(url) => if url.Some? && url.value != "" then url else None
  }

  function TargetFor(url: string, lambdaName: string): Target {
    Target(url, lambdaName, true)
  }

  /** `main`: a lookup that throws rejects `main`; a missing or empty URL returns before
      any receive, invoke or delete; otherwise the loop runs against the resolved URL. */
  function Main(queueName: string, lambdaName: string, lookup: UrlLookup, script: seq<ReceiveOutcome>): (r: RunResult)
    ensures |r.calls| >= 1 && r.calls[0] == GetQueueUrl(queueName)
    ensures lookup.UrlThrew? ==> r == RunResult(Crashed(lookup.error), NoStats, [GetQueueUrl(queueName)])
    ensures lookup.UrlAnswer? && ResolvedUrl(lookup).None? ==>
              r == RunResult(NoQueueUrl, NoStats, [GetQueueUrl(queueName)])
    ensures ResolvedUrl(lookup).Some? ==>
              && |r.calls| >= 2
              && r.calls[1] == ReceiveCall(TargetFor(ResolvedUrl(lookup).value, lambdaName))
              && ForTarget(r.calls, TargetFor(ResolvedUrl(lookup).value, lambdaName))
              && r.stats.reprocessed + |r.stats.failed| <= r.stats.received
  {
    var lookupCall := [GetQueueUrl(queueName)];
    match lookup
    case UrlThrew(e) => RunResult(Crashed(e), NoStats, lookupCall)
    case UrlAnswer(url) =>
      if url.None? || url.value == "" then RunResult(NoQueueUrl, NoStats, lookupCall)
      else
        var t := TargetFor(url.value, lambdaName);
        var run := Run(t, script);
        assert ForTarget(lookupCall + run.calls, t) by {
          forall i | 0 <= i < |lookupCall + run.calls|
            ensures CallFor((lookupCall + run.calls)[i], t)
          {
            if i > 0 {
              assert (lookupCall + run.calls)[i] == run.calls[i - 1];
            }
          }
        }
        run.(calls := lookupCall + run.calls)
  }

  /** With a resolved URL, the run is the redrive loop's run against that URL and the
      Lambda name: the same counters and failed list, the same invocations, deletes and
      receives, preceded by the one lookup. */
  lemma MainMatchesReference(queueName: string, lambdaName: string, lookup: UrlLookup, script: seq<ReceiveOutcome>)
    requires ResolvedUrl(lookup).Some?
    ensures var r := Main(queueName, lambdaName, lookup, script);
      var t := TargetFor(ResolvedUrl(lookup).value, lambdaName);
      var ds := Handled(script);
      && r.end == ExpectedEnd(script)
      && r.stats == Stats(|ds|, CountFate(ds, Reprocessed), FailedIds(ds))
      && CallsOfKind(r.calls, LookupKind) == [GetQueueUrl(queueName)]
      && CallsOfKind(r.calls, InvokeKind) == InvokesFor(t, ds)
      && CallsOfKind(r.calls, DeleteKind) == DeletesFor(t, ds)
      && CallsOfKind(r.calls, ReceiveKind) == Repeat(ReceiveCall(t), 1 + |Batches(script)|)
      && r.calls == [GetQueueUrl(queueName)] + ExpectedTrace(t, script)
  {
    var t := TargetFor(ResolvedUrl(lookup).value, lambdaName);
    var run := Run(t, script);
    RunMatchesReference(t, script);
    assert Main(queueName, lambdaName, lookup, script).calls == [GetQueueUrl(queueName)] + run.calls;
    CallsOfKindAppendAll([GetQueueUrl(queueName)], run.calls);
  }
}

=== FILE: sqs_to_lambda_built.dfy ===
/**
 `main` of `built/sqsToLambda.js`: the account id, region, queue name and Lambda
 name come from the command line, and the queue URL is built from them instead
 of being looked up.
 */
module SqsToLambdaBuilt {
  import opened Aws
  import opened Redrive
  import opened QueueUrls

  function TargetFor(accountId: string, awsRegion: string, queueName: string, lambdaName: string): Target {
    Target(QueueUrl(QueueAddress(awsRegion, accountId, queueName)), lambdaName, true)
  }

  /** `main`: the redrive loop against the templated URL. */
  function Main(accountId: string, awsRegion: string, queueName: string, lambdaName: string,
                script: seq<ReceiveOutcome>): (r: RunResult)
    ensures var t := TargetFor(accountId, awsRegion, queueName, lambdaName);
      && |r.calls| >= 1 && r.calls[0] == ReceiveCall(t)
      && ForTarget(r.calls, t)
      && CallsOfKind(r.calls, LookupKind) == []
      && r.end != NoQueueUrl
      && r.stats.reprocessed + |r.stats.failed| <= r.stats.received
    ensures FirstReceive(script) == NoMessagesField ==> r.end == NoMessagesReceived && r.stats == NoStats
    ensures var t := TargetFor(accountId, awsRegion, queueName, lambdaName);
      var ds := Handled(script);
      && r.end == ExpectedEnd(script)
      && r.stats == Stats(|ds|, CountFate(ds, Reprocessed), FailedIds(ds))
      && r.calls == ExpectedTrace(t, script)
      && CallsOfKind(r.calls, InvokeKind) == InvokesFor(t, ds)
      && CallsOfKind(r.calls, DeleteKind) == DeletesFor(t, ds)
  {
    var t := TargetFor(accountId, awsRegion, queueName, lambdaName);
    RunMatchesReference(t, script);
    Run(t, script)
  }

  /** Every receive and delete of a run goes to the one templated URL, and when the
      region and account id hold no '/' that URL reads back as the command-line
      region, account id and queue name. */
  lemma MainUsesTemplatedUrl(accountId: string, awsRegion: string, queueName: string, lambdaName: string,
                             script: seq<ReceiveOutcome>, i: int)
    requires '/' !in awsRegion && '/' !in accountId
    requires 0 <= i < |Main(accountId, awsRegion, queueName, lambdaName, script).calls|
    ensures var c := Main(accountId, awsRegion, queueName, lambdaName, script).calls[i];
      SentTo(c).Some? ==> ParseQueueUrl(SentTo(c).value) == Some(QueueAddress(awsRegion, accountId, queueName))
  {
    var r := Main(accountId, awsRegion, queueName, lambdaName, script);
    OneQueueUrl(r.calls, TargetFor(accountId, awsRegion, queueName, lambdaName), i);
    QueueUrlRoundTrip(QueueAddress(awsRegion, accountId, queueName));
  }
}

=== FILE: test_script.dfy ===
/**
 `main` of `src/testScript.ts`: the redrive loop with a hard-coded queue URL
 (region ap-southeast-2, an account id left empty, queue "testQueue"), the
 Lambda "testLambda", and a receive request without `AttributeNames`.
 */
module TestScript {
  import opened Aws
  import opened Redrive
  import opened QueueUrls

  const TestQueue := QueueAddress("ap-southeast-2", "", "testQueue")
  const TestLambda := "testLambda"

  function TestTarget(): Target {
    Target(QueueUrl(TestQueue), TestLambda, false)
  }

  /** `main`: the redrive loop against the fixed queue and Lambda. */
  function Main(script: seq<ReceiveOutcome>): (r: RunResult)
    ensures |r.calls| >= 1 && r.calls[0] == ReceiveCall(TestTarget())
    ensures ForTarget(r.calls, TestTarget())
    ensures CallsOfKind(r.calls, LookupKind) == []
    ensures r.stats.reprocessed + |r.stats.failed| <= r.stats.received
    ensures FirstReceive(script) == NoMessagesField ==> r.end == NoMessagesReceived && r.stats == NoStats
    ensures var ds := Handled(script);
      && r.end == ExpectedEnd(script)
      && r.stats == Stats(|ds|, CountFate(ds, Reprocessed), FailedIds(ds))
      && r.calls == ExpectedTrace(TestTarget(), script)
      && CallsOfKind(r.calls, InvokeKind) == InvokesFor(TestTarget(), ds)
      && CallsOfKind(r.calls, DeleteKind) == DeletesFor(TestTarget(), ds)
  {
    RunMatchesReference(TestTarget(), script);
    Run(TestTarget(), script)
  }

  /** The fixed URL (whose account id is left empty, so its path starts with "//")
      reads back as the fixed region, the empty account id and the queue name. */
  lemma TestQueueUrlReadsBack()
    ensures ParseQueueUrl(QueueUrl(TestQueue)) == Some(TestQueue)
  {
    QueueUrlRoundTrip(TestQueue);
  }

  /** The i-th invocation of a run targets "testLambda" as an "Event" invocation whose
      payload is the i-th handled message's body. */
  lemma InvocationCarriesBody(script: seq<ReceiveOutcome>, i: int)
    requires 0 <= i < |Handled(script)|
    ensures var invokes := CallsOfKind(Main(script).calls, InvokeKind);
      && |invokes| == |Handled(script)|
      && invokes[i] == Invoke(InvokeRequest("testLambda", "Event", JsonOf(Handled(script)[i].message.body)))
  {
    RunMatchesReference(TestTarget(), script);
    InvokesForIndex(TestTarget(), Handled(script), i);
  }
}
